=== FILE: README.md ===
# Onyx memorisation: the discrete core of the trainer and the verifier

The Onyx experiment trains a small transformer to memorise one text file. It
then checks that greedy generation from the file's first 256 characters
reproduces the file, bit for bit and confirmed by SHA-256. The network is
numerics. Around it sit two pieces of plain sequence logic, and this project
models and proves properties of both:

- **The verifier** (`verify_sha256.py`) does the following:
  - builds the inverse vocabulary `itos` from the pickled `stoi` dict;
  - encodes the first `block_size` characters of the corpus as the seed;
  - extends the seed one greedily predicted index at a time, sliding a context window as it goes;
  - decodes the result and compares it with the corpus;
  - on a failure, reports the first divergent position.
- **The trainer** (`train_onyx.py`) does the following:
  - encodes the corpus;
  - slides an input window `[i, i+b)` and a target window `[i+1, i+b+1)` over the offsets `0 .. len-b-1`;
  - writes a checkpoint after every step whose loss is below `1e-8`, and another at the end of every epoch;
  - stops at the first epoch whose average loss is below `1e-7`.

The network is an opaque, deterministic `Predictor`, a function from an index
window to the next index. It stands for "run `OnyxModel` on the context and
take the argmax of the last position". `Window` records the one fact about the
network that matters here: it only reads the last `block_size` indices. The
trainer's per-step losses come from an abstract `LossOracle(epoch, offset)`.
SHA-256 equality is modelled as string equality.

Modules, one per file:

- `Wrappers` holds `Option`, which stands for a lookup that raised `KeyError`.
- `Numeric` holds `Min`, Python's `min` on integers.
- `Vocabulary` covers the dict items, `stoi`, `itos`, encoding and decoding. The two scripts share it.
- `Generation` covers the context window, greedy generation and the reconstruction loop.
- `Verification` covers the end-to-end verdict, the divergence finder and the perfect-predictor theorems.
- `Training` covers slicing, the offset schedule, and the epoch loop's save and stop decisions.

A few modelling choices:

- **The dict.** It is modelled by its `items()` in iteration order (`Items`). The comprehension `{i: ch for ch, i in vocab.items()}` lets a later item override an earlier one with the same index. The model keeps that behaviour, so a non-injective vocabulary is handled exactly.
- **Block size.** It is a parameter `b > 0`; the scripts use `BlockSize = 256`, and `ScriptMatchIffPerfect` states the main theorem at that value.
- **The endless loop.** The trainer's `while True` is observed through an epoch budget. `Halt` records whether the run converged, crashed, or was still running when the budget ran out.

Two behaviours of the code worth noting:

- **Seed encoding.** Only the first `block_size` characters are encoded. A character that is missing from the vocabulary further into the corpus raises no `KeyError`; it just cannot match. `Reconstruct` and `Check` model this, and `UnknownNeverMatches` proves that such a corpus never matches.
- **Short corpus.** The trainer does not require `len > block_size`.
  - When `len == block_size`, the first epoch divides by zero before any checkpoint is written.
  - When `len < block_size`, `0 / num_segments` is `-0.0`. That is below `1e-7`, so the first epoch runs no steps, saves once and stops as "converged".
  - `DegenerateCorpus` states both cases.

## Model

| member | source | states |
|---|---|---|
| Vocabulary.Stoi | verify_sha256.py:24 | The dict's keys are exactly the characters listed in its items. |
| Vocabulary.StoiAt | verify_sha256.py:24 | In a dict (keys distinct), every listed character maps to the index listed with it. |
| Vocabulary.StoiInValues | verify_sha256.py:24 | Every index that `stoi` hands out is one of the vocabulary's indices. |
| Vocabulary.Itos | verify_sha256.py:22-23 | The keys of `itos` are exactly the indices that occur in the vocabulary. |
| Vocabulary.ItosAt | verify_sha256.py:23 | An index maps back to the character of the last item carrying it; later items override earlier ones. |
| Vocabulary.StoiOfItos | verify_sha256.py:22-24 | `stoi[itos[i]] == i` for every index of `itos`, for any dict, injective or not. |
| Vocabulary.ItosOfStoi | verify_sha256.py:22-24 | For an injective vocabulary, `itos[stoi[c]] == c` for every character `c`. |
| Vocabulary.ItosInvertsStoi | verify_sha256.py:22-24 | Both round trips over the whole maps: indices always round-trip; characters round-trip when the vocabulary is injective. |
| Vocabulary.NonInjectiveLosesCharacter | verify_sha256.py:23 | Conversely, a vocabulary that gives two characters one index has a character that `itos[stoi[c]]` does not return. |
| Vocabulary.LookupAll | train_onyx.py:28 | A comprehension of dict lookups, used for `[vocab[c] for c in text]` and, on `itos`, for the decode on verify_sha256.py line 69. It succeeds exactly when every element is a key, and then yields one value per element, `m[xs[k]]` at position `k`. |
| Vocabulary.EncodeSlice | verify_sha256.py:45 | Encoding a slice of the text gives the same slice of the text's encoding. |
| Vocabulary.DecodeEncode | verify_sha256.py:69 | Decoding the encoding of a string gives the string back, when `itos` inverts `stoi` on characters. |
| Vocabulary.EncodeDecode | verify_sha256.py:69 | Re-encoding decoded indices gives the indices back, when `stoi` inverts `itos` on indices. |
| Generation.Window | onyx_arch.py:41 | The network's view of a context is its last `min(len, b)` indices. |
| Generation.Slide | verify_sha256.py:61 | Sliding drops the oldest index, keeps the rest in order, appends the new one and keeps the length. |
| Generation.StepCount | verify_sha256.py:54 | The loop runs `len - b` times, and no times for a short corpus, so the seed plus the generated steps always have the corpus's length. |
| Generation.WindowSlides | verify_sha256.py:61 | Once the output is a full window long, appending an index slides the window: the oldest entry is dropped and the new one appended. |
| Generation.Generate | verify_sha256.py:47-58 | Greedy generation appends exactly `n` indices and leaves the seed as a prefix of the output. |
| Generation.GenerateChooses | verify_sha256.py:55-58 | Every generated index is the predictor applied to the window of everything before it. |
| Generation.GenerateIsDetermined | verify_sha256.py:55-58 | The output is determined by the seed and the predictor: any sequence that extends the seed by the predictor's choices is the generated one. |
| Generation.Reconstruct | verify_sha256.py:45-61 | The seed fails with `KeyError` exactly when one of the first `min(len, b)` characters is unknown. Otherwise the output has the corpus's length even when `len < b`, begins with the encoded seed, and is greedy generation from it. The final context is the last `min(len, b)` entries of the output. |
| Generation.Extend | verify_sha256.py:54-61 | The generation loop's result is greedy generation from the seed. Its context is always the window (the last `b` entries) of the output. |
| Generation.GreedyIndex | verify_sha256.py:57 | `argmax` returns an in-range position holding the maximum, with every earlier position strictly smaller. |
| Generation.GreedyPredictor | verify_sha256.py:55-57 | Argmax over a network that returns `vocab_size` logits only ever predicts an index in `0 .. vocab_size-1`. |
| Verification.Check | verify_sha256.py:45-90 | The run fails on the seed exactly when one of the first `min(len, b)` characters is unknown. An integrity failure always comes with a located position inside the corpus. |
| Verification.Verify | verify_sha256.py:22-90 | The same seed condition for the maps the script builds from the vocabulary's items: the seed fails exactly when a character there is not among the dict's keys. |
| Verification.FirstDivergence | verify_sha256.py:86-90 | The finder reports nothing exactly when the strings agree on their common length. Otherwise it reports the least differing position, with the expected and produced characters, and every earlier position agrees. |
| Verification.SeedIsEncodedPrefix | verify_sha256.py:45 | The seed is the first `min(len, b)` indices of the corpus's encoding. |
| Verification.GenerateFollowsCorpus | verify_sha256.py:54-58 | A predictor that is right on the true windows so far regenerates the encoded corpus from its true seed. |
| Verification.GeneratePrefix | verify_sha256.py:54-58 | Running fewer generation steps yields a prefix of the longer run. |
| Verification.AgreementMeansPerfectBefore | verify_sha256.py:54-58 | If generation from the true seed agrees with the corpus up to `p`, the predictor is right on every true window ending before `p`. |
| Verification.CorpusGeneratedOnlyByPerfect | verify_sha256.py:54-58 | If generation from the true seed reproduces the encoded corpus, the predictor is right on every true window. |
| Verification.SeedIsExact | verify_sha256.py:45-47 | When `itos` inverts `stoi`, the decoded output agrees with the corpus on its first `min(len, b)` characters. |
| Verification.DivergenceAfterSeed | verify_sha256.py:45-90 | When `itos` inverts `stoi`, any reported divergence lies at or after position `min(len, b)`. |
| Verification.PerfectImpliesMatch | verify_sha256.py:54-81 | When `itos` inverts `stoi`, a predictor that is right on every true window yields a hash match. |
| Verification.MatchImpliesPerfect | verify_sha256.py:54-81 | When `stoi` inverts `itos` on indices, a hash match means the predictor was right on every true window. |
| Verification.MatchIffPerfect | verify_sha256.py:54-81 | Both directions: with `stoi` and `itos` inverse, the verifier reports a match exactly when every character of the corpus is in the vocabulary and the predictor is perfect on the corpus. |
| Verification.ScriptMatchIffPerfect | verify_sha256.py:22-81 | At the scripts' block size of 256, for a bijective vocabulary, the script reports a hash match exactly when every character of the corpus is in the vocabulary and the predictor is perfect on the corpus. |
| Verification.VerifyMatchIffPerfect | verify_sha256.py:22-81 | The same theorem for the script's own maps built from a bijective vocabulary: a match exactly when every corpus character is a key and the predictor is perfect on the corpus. |
| Verification.UnknownNeverMatches | verify_sha256.py:45-81 | When `stoi` inverts `itos` on indices, a corpus with a character outside the vocabulary never yields a hash match, even when that character lies past the seed and raises no `KeyError`. |
| Verification.AgreesBeforeDivergence | verify_sha256.py:54-90 | When `stoi` inverts `itos` on indices, the generated indices equal the corpus's encoding before a reported divergence at `p`. |
| Verification.DivergenceBlamesPredictor | verify_sha256.py:54-90 | When `stoi` and `itos` are inverse maps, a divergence reported at `p` pins down the predictor: it is right on every true window before `p` and wrong on the one ending at `p`. |
| Verification.WrongAtDivergence | verify_sha256.py:69-88 | When `itos` inverts `stoi`, a position where the decoded characters differ is one where the generated index differs from the corpus's index. |
| Verification.DivergenceAtFirstWrongPrediction | verify_sha256.py:54-90 | Conversely, when `stoi` and `itos` are inverse maps and the predictor is first wrong at the window ending at `p`, the verifier reports a divergence exactly at `p`, expecting `clean[p]` and reporting `itos` of the wrong prediction as the produced character. Within the model the only other outcome is a decode `KeyError`; the Latin-1 encoding error and the network's index errors are not modelled (see Left out). |
| Verification.NoIndexKeyErrorWhenDense | verify_sha256.py:57-69 | With dense indices `0 .. vocab_size-1` and a predictor that only returns such indices, as argmax over `vocab_size` logits does, decoding never raises `KeyError`. |
| Verification.GreedyNeverIndexKeyError | verify_sha256.py:55-69 | For a dense vocabulary and a network that returns `vocab_size` logits, the argmax predictor never makes the decode raise `KeyError`. |
| Training.SegmentCount | train_onyx.py:44 | An epoch takes one step per position past the first window (`len - b` steps, none when `len <= b`), and `num_segments` is zero exactly when `len == b`. |
| Training.Offsets | train_onyx.py:53 | An epoch visits exactly the offsets `0 .. num_segments-1`, each once and in increasing order; there are none when `num_segments <= 0`. |
| Training.Slice | train_onyx.py:57-58 | A Python slice is clamped to the sequence: it has the clamped length and the values at the shifted positions. |
| Training.InputWindow | train_onyx.py:57 | The input slice holds at most `b` consecutive corpus entries starting at `i`, inside the corpus. |
| Training.TargetWindow | train_onyx.py:58 | The target slice holds at most `b` consecutive corpus entries starting at `i + 1`, inside the corpus. |
| Training.WindowsInBounds | train_onyx.py:44-58 | For every scheduled offset, both slices lie inside the corpus and are unclamped, each has exactly `b` entries, and the target is the input shifted by one. |
| Training.TargetsCoverCorpus | train_onyx.py:44-58 | When `len > b`, a position is a target of some window of the epoch exactly when it lies in `1 .. len-1`, and that window's target slice holds the corpus entry at that position. |
| Training.StepTotalIsSum | train_onyx.py:50-67 | `total_loss` after `k` steps of an epoch, starting from zero and adding each step's loss, equals the sum of those `k` step losses. |
| Training.NonNegativeTotal | train_onyx.py:50-67 | When no step loss is negative, as with cross-entropy, the running total is never negative. |
| Training.EpochAverage | train_onyx.py:79 | With steps, the average times `num_segments` is the epoch's total loss. With a negative `num_segments`, no steps run and the average is zero. |
| Training.StepSaves | train_onyx.py:53-77 | An epoch of `k` steps writes at most `k` step checkpoints. |
| Training.StepSavedInEpoch | train_onyx.py:53-76 | Within one epoch, a step checkpoint is written for offset `i` exactly when `i` is one of the steps and its loss is below `1e-8`. |
| Training.StepSavesInOrder | train_onyx.py:53-76 | An epoch's step checkpoints come in offset order. |
| Training.EpochSavesBelongToEpoch | train_onyx.py:53-81 | All of an epoch's checkpoints carry that epoch and come in loop order, with the end-of-epoch checkpoint last. |
| Training.RunEpoch | train_onyx.py:49-86 | An epoch crashes exactly when `num_segments == 0`. Otherwise it ends with its end-of-epoch checkpoint, writes only checkpoints of its own epoch, and stops the loop exactly when its average is below `1e-7`. |
| Training.TrainFrom | train_onyx.py:47-86 | The observed run enters between zero and `budget` further epochs, and each of its checkpoints belongs to an epoch it entered. |
| Training.SavesInOrder | train_onyx.py:47-86 | Checkpoints are written in loop order: by epoch, within an epoch by offset, and the end-of-epoch checkpoint last. |
| Training.ChronologicalConcat | train_onyx.py:47-81 | Checkpoints of one epoch followed by those of later epochs stay in loop order. |
| Training.TrainOnText | train_onyx.py:28-44 | The trainer raises `KeyError` before any epoch exactly when a character of the text is not in the vocabulary. Otherwise it runs with `num_segments = len(text) - b`. |
| Training.Train | train_onyx.py:44-86 | A run crashes on division by zero exactly when it enters an epoch and the corpus is exactly one window long. |
| Training.EpochCount | train_onyx.py:47-86 | A run still going at the end of the budget has used all of it. A run that halted has entered at least one epoch. |
| Training.StopsAtFirstLowAverage | train_onyx.py:79-86 | When `num_segments != 0`, the loop converges at epoch `E` exactly when `E`'s average is below `1e-7` and no earlier epoch's average was. |
| Training.StillTrainingIffNoLowAverage | train_onyx.py:47-86 | When `num_segments != 0` nothing crashes, and the budget runs out exactly when no observed epoch had a low average. |
| Training.SavedBy | train_onyx.py:47-86 | When `num_segments != 0` and the budget allows an epoch, a checkpoint of the run comes from its first epoch or, when that epoch does not stop the loop, from the rest of the run. |
| Training.EpochSaved | train_onyx.py:79-81 | When `num_segments != 0`, the end-of-epoch checkpoint of epoch `e` is written exactly when epoch `e` was entered. |
| Training.EveryEpochSaves | train_onyx.py:79-86 | When `num_segments != 0`, every entered epoch, and no other, writes its end-of-epoch checkpoint before the stop test. |
| Training.StepSaved | train_onyx.py:74-76 | When `num_segments != 0`, step `i` of epoch `e` writes a checkpoint exactly when epoch `e` was entered, `i < num_segments`, and its loss is below `1e-8`. |
| Training.LowLossStepsSave | train_onyx.py:53-77 | When `num_segments != 0`, the same for all steps at once; a low step loss writes a checkpoint but never ends the pass. |
| Training.DegenerateCorpus | train_onyx.py:44-86 | At `len == b`, the first epoch divides by zero before any checkpoint. At `len < b`, it writes one end-of-epoch checkpoint and stops without a step. |

## Left out

- The network (`onyx_arch.py`: embeddings, attention, layer norm, feed-forward). It is replaced by the opaque `Predictor`. The only fact kept is that it reads just the last `block_size` indices (`Window`, onyx_arch.py:41).
- Cross-entropy, back-propagation and AdamW (train_onyx.py:31-33, 60-65). They are floating-point numerics in a foreign library, so the step loss is an input (`LossOracle`).
- Floating-point rounding of losses, of their running total and of the average. Losses are exact reals, and `1e-8` and `1e-7` are the exact decimals.
- SHA-256 (verify_sha256.py:71-75). The digest comparison is modelled as string equality. That justifies "equal strings, equal digests"; it treats unequal strings as unequal digests, that is, it assumes no collision.
- File reading, pickle loading, checkpoint `torch.save` and `torch.load`, the existence checks and `exit()`. These are I/O. A checkpoint write is recorded as a `Save` event, without contents.
- Checkpoint resumption at start-up (train_onyx.py:36-38). It only changes the weights, which the predictor and the loss oracle already abstract.
- Progress printing and device selection.
- The `KeyboardInterrupt` handler (train_onyx.py:88-90), which writes one more checkpoint on an interrupt. Interrupts are asynchronous signals and are not modelled.
- NaN logits in `torch.argmax`. `GreedyIndex` works over ordered reals.
- Verification.Check: the characters of the corpus and of the vocabulary are assumed to be Latin-1 (U+0000 to U+00FF). For any other character, `s.encode('latin-1')` raises `UnicodeEncodeError` at verify_sha256.py:72-75. That error is not modelled, and no verdict stands for it.
- Generation.Predictor: indices are assumed to lie in `0 .. vocab_size-1`, as they do when the vocabulary is `Dense`. The network's embedding lookup (onyx_arch.py:33, 43) raises `IndexError` on an out-of-range index, and so does the loss on an out-of-range target (train_onyx.py:60-61). Neither error is modelled; `Predictor` and `LossOracle` are total. `GreedyPredictor` shows that argmax over `vocab_size` logits never leaves that range.
- Training.TrainFrom: the unbounded `while True` is observed for a finite epoch budget. A run that never converges is only described up to that budget (`StillTraining`).

=== FILE: generation.dfy ===
/**
  Greedy sliding-window reconstruction of the corpus (the generation loop of
  the verifier script).

  The network is an opaque, deterministic `predict` from an index window to
  the next index: it stands for "run the model on the window and take the
  argmax of the last position's logits". The network itself only reads the
  last `BlockSize` indices of what it is given (`Window`).
 */
module Generation {
  import opened Wrappers
  import opened Numeric
  import opened Vocabulary

  /** The context width shared by the model, the trainer and the verifier. */
  const BlockSize: nat := 256

  /** The predictor: an index window to the greedily chosen next index. */
  type Predictor = seq<int> -> int

  /**
    `idx[-b:]` for `b > 0`: the last `min(|s|, b)` entries, which is all the
    network's forward pass looks at.
   */
  function Window(s: seq<int>, b: nat): (w: seq<int>)
    requires b > 0
    ensures |w| == Min(|s|, b)
  {
    s[|s| - Min(|s|, b)..]
  }

  /** Drop the oldest entry of a non-empty window and append the newest. */
  function Slide(context: seq<int>, next: int): (r: seq<int>)
    requires |context| > 0
    ensures |r| == |context|
    ensures r[|r| - 1] == next
    ensures forall k :: 0 <= k < |r| - 1 ==> r[k] == context[k + 1]
  {
    context[1..] + [next]
  }

  /** Once the output is a full window long, appending to it slides its window. */
  lemma {:induction false} WindowSlides(s: seq<int>, x: int, b: nat)
    requires 0 < b <= |s|
    ensures Window(s + [x], b) == Slide(Window(s, b), x)
  {
    assert (s + [x])[|s| + 1 - b..] == s[|s| - b..][1..] + [x];
  }

  /** `range(len(clean_data) - block_size)` runs this many times (none when negative). */
  function StepCount(length: nat, b: nat): (n: nat)
    ensures Min(length, b) + n == length
    ensures length <= b ==> n == 0
  {
    if length > b then length - b else 0
  }

  /**
    Reference definition of greedy generation: `n` indices are appended to
    `seed`, each one chosen by the predictor from the window of everything
    generated before it (`GenerateChooses`).
   */
  function Generate(seed: seq<int>, predict: Predictor, b: nat, n: nat): (out: seq<int>)
    requires b > 0
    ensures |out| == |seed| + n
    ensures out[..|seed|] == seed
    decreases n
  {
    if n == 0 then seed
    else
      var g := Generate(seed, predict, b, n - 1);
      assert (g + [predict(Window(g, b))])[..|g|] == g;
      g + [predict(Window(g, b))]
  }

  /** Every generated index is the predictor applied to the window of the output before it. */
  lemma {:induction false} GenerateChooses(seed: seq<int>, predict: Predictor, b: nat, n: nat, j: nat)
    requires b > 0
    requires |seed| <= j < |seed| + n
    ensures var out := Generate(seed, predict, b, n); out[j] == predict(Window(out[..j], b))
    decreases n
  {
    var g := Generate(seed, predict, b, n - 1);
    if j < |g| {
      GenerateChooses(seed, predict, b, n - 1, j);
      assert (g + [predict(Window(g, b))])[..j] == g[..j];
    } else {
      assert (g + [predict(Window(g, b))])[..j] == g;
    }
  }

  /**
    The output is determined by the predictor and the seed: any sequence that
    starts with the seed and continues by the predictor's choices is the one
    `Generate` builds.
   */
  lemma {:induction false} GenerateIsDetermined(seed: seq<int>, predict: Predictor, b: nat, out: seq<int>)
    requires b > 0
    requires |seed| <= |out|
    requires out[..|seed|] == seed
    requires forall j :: |seed| <= j < |out| ==> out[j] == predict(Window(out[..j], b))
    ensures out == Generate(seed, predict, b, |out| - |seed|)
    decreases |out|
  {
    if |out| > |seed| {
      var prev := out[..|out| - 1];
      assert prev[..|seed|] == seed;
      assert forall j :: |seed| <= j < |prev| ==> prev[..j] == out[..j];
      GenerateIsDetermined(seed, predict, b, prev);
      assert out[|out| - 1] == predict(Window(prev, b));
      assert Generate(seed, predict, b, |out| - |seed|) == prev + [predict(Window(prev, b))];
      assert out == prev + [out[|out| - 1]];
    }
  }

  /**
    The verifier's reconstruction loop. The seed is the encoding of the first
    `b` characters of the corpus (`KeyError`, here `None`, if one is not in
    the vocabulary; the rest of the corpus is never encoded). The loop then
    runs `len(clean_data) - b` times, appending the predicted index and
    sliding the context window.
   */
  method Reconstruct(stoi: map<char, int>, clean: string, predict: Predictor, b: nat)
    returns (generated: Option<seq<int>>, context: seq<int>)
    requires b > 0
    ensures generated.None? <==> exists k :: 0 <= k < Min(|clean|, b) && clean[k] !in stoi
    ensures generated.Some? ==>
              && |generated.value| == |clean|
              && Encode(stoi, clean[..Min(|clean|, b)]) == Some(generated.value[..Min(|clean|, b)])
              && generated.value == Generate(generated.value[..Min(|clean|, b)], predict, b, StepCount(|clean|, b))
    ensures generated.Some? ==>
              && |context| == Min(|clean|, b)
              && context == generated.value[|clean| - Min(|clean|, b)..]
  {
    var seedText := clean[..Min(|clean|, b)];
    var keyIndices := Encode(stoi, seedText);
    if keyIndices.None? {
      var k :| 0 <= k < |seedText| && seedText[k] !in stoi;
      return None, [];
    }
    assert forall k :: 0 <= k < |seedText| ==> seedText[k] == clean[k];
    var seed := keyIndices.value;
    var out;
    out, context := Extend(seed, predict, b, StepCount(|clean|, b));
    assert |out| == |clean| && context == out[|clean| - Min(|clean|, b)..];
    return Some(out), context;
  }

  /**
    The generation loop proper: `steps` times, predict from the context,
    append the prediction and slide the context. The context stays the
    window of the output.
   */
  method Extend(seed: seq<int>, predict: Predictor, b: nat, steps: nat) returns (out: seq<int>, context: seq<int>)
    requires b > 0
    requires |seed| <= b
    requires steps > 0 ==> |seed| == b
    ensures out == Generate(seed, predict, b, steps)
    ensures context == Window(out, b)
  {
    context := seed;
    out := seed;
    var i := 0;
    while i < steps
      invariant i <= steps
      invariant out == Generate(seed, predict, b, i)
      invariant context == Window(out, b)
    {
      // the network reads Window(context, b), which is the whole context
      var next := predict(context);
      assert Generate(seed, predict, b, i + 1) == out + [next];
      WindowSlides(out, next, b);
      out := out + [next];
      context := Slide(context, next);
      i := i + 1;
    }
  }

  /**
    `torch.argmax` over one position's logits: the first position holding the
    largest value.
   */
  function GreedyIndex(logits: seq<real>): (r: nat)
    requires |logits| > 0
    ensures r < |logits|
    ensures forall k :: 0 <= k < |logits| ==> logits[k] <= logits[r]
    ensures forall k :: 0 <= k < r ==> logits[k] < logits[r]
  {
    if |logits| == 1 then 0
    else
      var r := GreedyIndex(logits[..|logits| - 1]);
      if logits[|logits| - 1] > logits[r] then |logits| - 1 else r
  }

  /**
    The predictor the verifier actually uses: run the network on the context
    and take `argmax` of the last position's `vocab_size` logits. Whatever
    the network computes, the chosen index is a valid vocabulary position.
   */
  function GreedyPredictor(network: seq<int> -> seq<real>, vocabSize: nat): (p: Predictor)
    requires vocabSize > 0
    requires forall w :: |network(w)| == vocabSize
    ensures forall w :: 0 <= p(w) < vocabSize
  {
    var p: Predictor := w => GreedyIndex(network(w));
    assert forall w :: p(w) == GreedyIndex(network(w)) && GreedyIndex(network(w)) < |network(w)|;
    p
  }
}

=== FILE: numeric.dfy ===
/** Integer helpers shared by the window and slice arithmetic. */
module Numeric {

  /** The smaller of two integers, as Python's `min`. */
  function Min(a: int, b: int): int
  {
    if a <= b then a else b
  }
}

=== FILE: training.dfy ===
/**
  The trainer's sliding micro-drill: per-offset input/target windows and the
  epoch loop's save and stop decisions.

  The network, cross-entropy and the optimizer are replaced by an abstract
  loss oracle `loss(epoch, offset)`: the loss of the step taken at `offset`
  in epoch `epoch`. Losses are exact reals (floating-point rounding is not
  modelled); only their order against the two thresholds matters.
 */
module Training {
  import opened Wrappers
  import opened Numeric
  import opened Vocabulary

  /** A step whose loss is below this saves a checkpoint (`1e-8`). */
  const StepSaveThreshold: real := 0.00000001

  /** An epoch whose average loss is below this ends training (`1e-7`). */
  const StopThreshold: real := 0.0000001

  /**
    `num_segments = len(data_tensor) - block_size`; zero or negative for a
    short corpus. An epoch takes one step per position past the first window,
    and none when the corpus is no longer than the window.
   */
  function SegmentCount(length: nat, b: nat): (n: int)
    ensures |Offsets(n)| == if length > b then length - b else 0
    ensures n == 0 <==> length == b
  {
    length - b
  }

  /** `range(0, n, 1)`: the offsets of one epoch. */
  function Offsets(n: int): (r: seq<nat>)
    ensures |r| == if n > 0 then n else 0
    ensures forall i: int :: i in r <==> 0 <= i < n
    ensures forall p, q :: 0 <= p < q < |r| ==> r[p] < r[q]
  {
    if n <= 0 then []
    else
      var prev := Offsets(n - 1);
      assert forall p :: 0 <= p < |prev| ==> prev[p] in prev;
      prev + [n - 1]
  }

  /** Python's `s[lo:hi]` for non-negative bounds: clamped to the sequence, never an error. */
  function Slice(s: seq<int>, lo: nat, hi: nat): (r: seq<int>)
    ensures |r| == if lo < Min(hi, |s|) then Min(hi, |s|) - lo else 0
    ensures forall k :: 0 <= k < |r| ==> r[k] == s[lo + k]
  {
    if lo < Min(hi, |s|) then s[lo..Min(hi, |s|)] else []
  }

  /** `x = data_tensor[i:i+block_size]`: at most `b` consecutive corpus entries from `i`. */
  function InputWindow(data: seq<int>, i: nat, b: nat): (x: seq<int>)
    ensures |x| <= b && (|x| == 0 || i + |x| <= |data|)
    ensures forall k :: 0 <= k < |x| ==> x[k] == data[i + k]
  {
    Slice(data, i, i + b)
  }

  /** `y = data_tensor[i+1:i+block_size+1]`: at most `b` consecutive corpus entries from `i + 1`. */
  function TargetWindow(data: seq<int>, i: nat, b: nat): (y: seq<int>)
    ensures |y| <= b && (|y| == 0 || i + 1 + |y| <= |data|)
    ensures forall k :: 0 <= k < |y| ==> y[k] == data[i + 1 + k]
  {
    Slice(data, i + 1, i + b + 1)
  }

  /**
    For every offset of the schedule neither slice is clamped: both windows
    lie inside the corpus, have exactly `b` entries, and the target is the
    input shifted by one position.
   */
  lemma {:induction false} WindowsInBounds(data: seq<int>, b: nat, i: nat)
    requires i in Offsets(SegmentCount(|data|, b))
    ensures i + b + 1 <= |data|
    ensures InputWindow(data, i, b) == data[i..i + b]
    ensures TargetWindow(data, i, b) == data[i + 1..i + b + 1]
    ensures |InputWindow(data, i, b)| == b && |TargetWindow(data, i, b)| == b
    ensures forall k :: 0 <= k < b - 1 ==> TargetWindow(data, i, b)[k] == InputWindow(data, i, b)[k + 1]
  {
  }

  /**
    Coverage: when the corpus is longer than the window, a position `j` is a
    target of some window of an epoch exactly when `1 <= j < len`, and that
    window's target slice holds `data[j]` at position `j - i - 1`.
   */
  lemma {:induction false} TargetsCoverCorpus(data: seq<int>, b: nat, j: int)
    requires 0 < b < |data|
    ensures (exists i :: i in Offsets(SegmentCount(|data|, b)) && i + 1 <= j <= i + b) <==> 1 <= j < |data|
    ensures 1 <= j < |data| ==>
              exists i :: && i in Offsets(SegmentCount(|data|, b)) && i + 1 <= j <= i + b
                          && TargetWindow(data, i, b)[j - i - 1] == data[j]
  {
    if 1 <= j < |data| {
      var i: nat := if j <= b then 0 else j - b;
      assert i in Offsets(SegmentCount(|data|, b));
      WindowsInBounds(data, b, i);
      assert TargetWindow(data, i, b)[j - i - 1] == data[j];
    }
  }

  /** The loss of the step at `offset` in epoch `epoch` (epochs count from 1). */
  type LossOracle = (nat, nat) -> real

  /** The losses of the first `k` steps of epoch `e`, in step order. */
  function Losses(loss: LossOracle, e: nat, k: nat): (r: seq<real>)
    ensures |r| == k
  {
    seq(k, j requires 0 <= j < k => loss(e, j))
  }

  /** The sum of a list of losses, first element first. */
  function Sum(xs: seq<real>): real
  {
    if |xs| == 0 then 0.0 else xs[0] + Sum(xs[1..])
  }

  /** Summing a list with one more loss at the end adds that loss. */
  lemma {:induction false} SumAppend(xs: seq<real>, x: real)
    ensures Sum(xs + [x]) == Sum(xs) + x
  {
    if |xs| > 0 {
      assert (xs + [x])[1..] == xs[1..] + [x];
      SumAppend(xs[1..], x);
    }
  }

  /** `total_loss` after the first `k` steps of epoch `e`: it starts at `0` and each step adds its own loss. */
  function StepTotal(loss: LossOracle, e: nat, k: nat): real
  {
    if k == 0 then 0.0 else StepTotal(loss, e, k - 1) + loss(e, k - 1)
  }

  /** The running total is the sum of the epoch's first `k` step losses. */
  lemma {:induction false} StepTotalIsSum(loss: LossOracle, e: nat, k: nat)
    ensures StepTotal(loss, e, k) == Sum(Losses(loss, e, k))
  {
    if k > 0 {
      var prev := Losses(loss, e, k - 1);
      assert Losses(loss, e, k) == prev + [loss(e, k - 1)];
      StepTotalIsSum(loss, e, k - 1);
      SumAppend(prev, loss(e, k - 1));
    }
  }

  /** The first `k` step losses of epoch `e` are all `>= 0`, as cross-entropy losses are. */
  predicate NonNegativeLosses(loss: LossOracle, e: nat, k: nat)
  {
    forall j :: 0 <= j < k ==> loss(e, j) >= 0.0
  }

  /** With no negative step loss the running total is never negative. */
  lemma {:induction false} NonNegativeTotal(loss: LossOracle, e: nat, k: nat)
    requires NonNegativeLosses(loss, e, k)
    ensures StepTotal(loss, e, k) >= 0.0
  {
    if k > 0 {
      NonNegativeTotal(loss, e, k - 1);
    }
  }

  /** `avg_loss = total_loss / num_segments`: with no steps the total is `0`. */
  function EpochAverage(loss: LossOracle, e: nat, n: int): (avg: real)
    requires n != 0
    ensures n > 0 ==> avg * (n as real) == StepTotal(loss, e, n)
    ensures n < 0 ==> avg == 0.0
  {
    StepTotal(loss, e, if n > 0 then n else 0) / (n as real)
  }

  /** A checkpoint write: after a low-loss step, or at the end of an epoch. */
  datatype Save = StepSave(epoch: nat, offset: nat) | EpochSave(epoch: nat)

  /** `a` is written before `b`: by epoch, and within an epoch step saves by offset, then the epoch save. */
  predicate Before(a: Save, b: Save)
  {
    || a.epoch < b.epoch
    || (a.epoch == b.epoch && a.StepSave? && (b.EpochSave? || a.offset < b.offset))
  }

  /** The saves were written in the order the loop visits them. */
  predicate Chronological(saves: seq<Save>)
  {
    forall p, q :: 0 <= p < q < |saves| ==> Before(saves[p], saves[q])
  }

  /** The step saves of the first `k` steps of epoch `e`, in offset order. */
  function StepSaves(loss: LossOracle, e: nat, k: nat): (saves: seq<Save>)
    ensures |saves| <= k
  {
    if k == 0 then []
    else
      var prev := StepSaves(loss, e, k - 1);
      if loss(e, k - 1) < StepSaveThreshold then prev + [StepSave(e, k - 1)] else prev
  }

  /** Within an epoch, step `i` saves exactly when it is one of the steps run and its loss is low. */
  lemma {:induction false} StepSavedInEpoch(loss: LossOracle, e: nat, k: nat, s: Save)
    ensures s in StepSaves(loss, e, k) <==>
            s.StepSave? && s.epoch == e && s.offset < k && loss(e, s.offset) < StepSaveThreshold
  {
    if k > 0 {
      StepSavedInEpoch(loss, e, k - 1, s);
    }
  }

  /** The step saves of an epoch are in offset order. */
  lemma {:induction false} StepSavesInOrder(loss: LossOracle, e: nat, k: nat)
    ensures Chronological(StepSaves(loss, e, k))
  {
    if k > 0 {
      StepSavesInOrder(loss, e, k - 1);
      var prev := StepSaves(loss, e, k - 1);
      forall p | 0 <= p < |prev|
        ensures prev[p].StepSave? && prev[p].epoch == e && prev[p].offset < k - 1
      {
        StepSavedInEpoch(loss, e, k - 1, prev[p]);
      }
    }
  }

  /** An epoch's saves all carry that epoch and come in loop order, the epoch save last. */
  lemma {:induction false} EpochSavesBelongToEpoch(loss: LossOracle, e: nat, k: nat)
    ensures forall s :: s in StepSaves(loss, e, k) + [EpochSave(e)] ==> s.epoch == e
    ensures Chronological(StepSaves(loss, e, k) + [EpochSave(e)])
  {
    var steps := StepSaves(loss, e, k);
    forall s | s in steps
      ensures s.StepSave? && s.epoch == e
    {
      StepSavedInEpoch(loss, e, k, s);
    }
    StepSavesInOrder(loss, e, k);
    var all := steps + [EpochSave(e)];
    forall p, q | 0 <= p < q < |all|
      ensures Before(all[p], all[q])
    {
      assert all[p] == steps[p] && steps[p] in steps;
      if q < |steps| {
        assert all[q] == steps[q];
      }
    }
  }

  /** How one pass over the offsets ends. */
  datatype EpochEnd =
    | DivisionByZero                             // `num_segments == 0` at the average
    | Completed(saves: seq<Save>, stop: bool)    // saves of the epoch, and whether it breaks

  /**
    One epoch `e`: every offset is stepped (a low step loss saves but does
    not end the pass), then the average is taken, the checkpoint saved, and
    the stop test made.
   */
  function RunEpoch(loss: LossOracle, e: nat, n: int): (r: EpochEnd)
    ensures r.DivisionByZero? <==> n == 0
    ensures r.Completed? ==> (r.stop <==> EpochAverage(loss, e, n) < StopThreshold)
    ensures r.Completed? ==> |r.saves| > 0 && r.saves[|r.saves| - 1] == EpochSave(e)
    ensures r.Completed? ==> forall s :: s in r.saves ==> s.epoch == e
  {
    if n == 0 then DivisionByZero
    else
      EpochSavesBelongToEpoch(loss, e, if n > 0 then n else 0);
      Completed(StepSaves(loss, e, if n > 0 then n else 0) + [EpochSave(e)], EpochAverage(loss, e, n) < StopThreshold)
  }

  /** How the observed part of training ends. */
  datatype Halt =
    | Converged       // an epoch average fell below the stop threshold
    | ZeroDivision    // the average divided by `num_segments == 0`
    | StillTraining   // the epoch budget ran out first

  /** The checkpoint writes, the last epoch entered, and how the run halted. */
  datatype Run = Run(saves: seq<Save>, epochs: nat, halt: Halt)

  /**
    The `while True` loop, observed for at most `budget` further epochs after
    `done` completed ones.
   */
  function TrainFrom(loss: LossOracle, n: int, done: nat, budget: nat): (r: Run)
    ensures done <= r.epochs <= done + budget
    ensures forall s :: s in r.saves ==> done < s.epoch <= r.epochs
    decreases budget
  {
    if budget == 0 then Run([], done, StillTraining)
    else
      match RunEpoch(loss, done + 1, n)
      case DivisionByZero => Run([], done + 1, ZeroDivision)
      case Completed(saves, stop) =>
        if stop then Run(saves, done + 1, Converged)
        else
          var rest := TrainFrom(loss, n, done + 1, budget - 1);
          assert forall s :: s in saves ==> s.epoch == done + 1;
          Run(saves + rest.saves, rest.epochs, rest.halt)
  }

  /** Checkpoints are written in loop order: by epoch, and within an epoch by offset, the epoch save last. */
  lemma {:induction false} SavesInOrder(loss: LossOracle, n: int, done: nat, budget: nat)
    ensures Chronological(TrainFrom(loss, n, done, budget).saves)
    decreases budget
  {
    if budget > 0 && n != 0 {
      var r := TrainFrom(loss, n, done, budget);
      var k := if n > 0 then n else 0;
      var first := StepSaves(loss, done + 1, k) + [EpochSave(done + 1)];
      EpochSavesBelongToEpoch(loss, done + 1, k);
      if EpochAverage(loss, done + 1, n) >= StopThreshold {
        var rest := TrainFrom(loss, n, done + 1, budget - 1);
        assert r.saves == first + rest.saves by {
          TrainFromUnfolds(loss, n, done, budget);
        }
        SavesInOrder(loss, n, done + 1, budget - 1);
        ChronologicalConcat(first, rest.saves);
      } else {
        assert r.saves == first by {
          TrainFromUnfolds(loss, n, done, budget);
        }
      }
    }
  }

  /** Two chronological runs of checkpoints, the second from strictly later epochs, form one. */
  lemma {:induction false} ChronologicalConcat(a: seq<Save>, b: seq<Save>)
    requires Chronological(a) && Chronological(b)
    requires forall x, y :: x in a && y in b ==> x.epoch < y.epoch
    ensures Chronological(a + b)
  {
    var all := a + b;
    forall p, q | 0 <= p < q < |all|
      ensures Before(all[p], all[q])
    {
      if q < |a| {
        assert all[p] == a[p] && all[q] == a[q];
      } else if p >= |a| {
        assert all[p] == b[p - |a|] && all[q] == b[q - |a|];
      } else {
        assert all[p] in a && all[q] in b;
      }
    }
  }

  /**
    The whole script from its text: the corpus is encoded first, and a
    character missing from the vocabulary raises `KeyError` before any
    epoch; otherwise there is one segment per position past the first window.
   */
  function TrainOnText(loss: LossOracle, stoi: map<char, int>, text: string, b: nat, budget: nat): (r: Option<Run>)
    ensures r.None? <==> exists k :: 0 <= k < |text| && text[k] !in stoi
    ensures r.Some? ==> r.value == TrainFrom(loss, |text| - b, 0, budget)
  {
    match Encode(stoi, text)
    case None => None
    case Some(data) => Some(Train(loss, data, b, budget))
  }

  /** The trainer on an encoded corpus, observed for `budget` epochs. */
  function Train(loss: LossOracle, data: seq<int>, b: nat, budget: nat): (r: Run)
    ensures r.halt == ZeroDivision <==> budget > 0 && |data| == b
  {
    var r := TrainFrom(loss, SegmentCount(|data|, b), 0, budget);
    assert r.halt == ZeroDivision <==> budget > 0 && |data| == b by {
      if SegmentCount(|data|, b) != 0 {
        StillTrainingIffNoLowAverage(loss, SegmentCount(|data|, b), 0, budget);
      }
    }
    r
  }

  /**
    The last epoch entered: the whole budget when training is still going,
    otherwise the epoch at which it halted.
   */
  lemma {:induction false} EpochCount(loss: LossOracle, n: int, done: nat, budget: nat)
    ensures var r := TrainFrom(loss, n, done, budget);
            && (r.halt == StillTraining ==> r.epochs == done + budget)
            && (r.halt != StillTraining ==> r.epochs > done)
    decreases budget
  {
    if budget > 0 {
      EpochCount(loss, n, done + 1, budget - 1);
    }
  }

  /**
    Training stops exactly at the first epoch whose average is below the
    stop threshold: it converges at epoch `E` if and only if epoch `E`'s
    average is low and every earlier epoch's is not.
   */
  lemma {:induction false} StopsAtFirstLowAverage(loss: LossOracle, n: int, done: nat, budget: nat, E: nat)
    requires n != 0
    requires done < E <= done + budget
    ensures var r := TrainFrom(loss, n, done, budget);
            (r.halt == Converged && r.epochs == E) <==>
            (EpochAverage(loss, E, n) < StopThreshold &&
             forall e :: done < e < E ==> EpochAverage(loss, e, n) >= StopThreshold)
    decreases budget
  {
    var r := TrainFrom(loss, n, done, budget);
    var low := EpochAverage(loss, done + 1, n) < StopThreshold;
    assert RunEpoch(loss, done + 1, n).Completed? && RunEpoch(loss, done + 1, n).stop == low;
    if low {
      assert r.halt == Converged && r.epochs == done + 1;
    } else {
      var rest := TrainFrom(loss, n, done + 1, budget - 1);
      assert r.halt == rest.halt && r.epochs == rest.epochs;
      if E > done + 1 {
        StopsAtFirstLowAverage(loss, n, done + 1, budget - 1, E);
      } else {
        EpochCount(loss, n, done + 1, budget - 1);
      }
    }
  }

  /**
    A division by zero is the only crash, and the budget runs out exactly
    when no observed epoch had a low average.
   */
  lemma {:induction false} StillTrainingIffNoLowAverage(loss: LossOracle, n: int, done: nat, budget: nat)
    requires n != 0
    ensures TrainFrom(loss, n, done, budget).halt != ZeroDivision
    ensures TrainFrom(loss, n, done, budget).halt == StillTraining <==>
            forall e :: done < e <= done + budget ==> EpochAverage(loss, e, n) >= StopThreshold
    decreases budget
  {
    if budget > 0 {
      var r := TrainFrom(loss, n, done, budget);
      if EpochAverage(loss, done + 1, n) >= StopThreshold {
        StillTrainingIffNoLowAverage(loss, n, done + 1, budget - 1);
        assert r.halt == TrainFrom(loss, n, done + 1, budget - 1).halt;
      } else {
        assert r.halt == Converged;
      }
    }
  }

  /** One turn of the loop, once the epoch's average is known (`n != 0`). */
  lemma {:induction false} TrainFromUnfolds(loss: LossOracle, n: int, done: nat, budget: nat)
    requires n != 0 && budget > 0
    ensures var saves := StepSaves(loss, done + 1, if n > 0 then n else 0) + [EpochSave(done + 1)];
            var rest := TrainFrom(loss, n, done + 1, budget - 1);
            TrainFrom(loss, n, done, budget) ==
              if EpochAverage(loss, done + 1, n) < StopThreshold then Run(saves, done + 1, Converged)
              else Run(saves + rest.saves, rest.epochs, rest.halt)
  {
  }

  /** A checkpoint of a run comes from its first epoch or, when that epoch does not stop the loop, from the rest. */
  lemma {:induction false} SavedBy(loss: LossOracle, n: int, done: nat, budget: nat, x: Save)
    requires n != 0 && budget > 0
    ensures var r := TrainFrom(loss, n, done, budget);
            var rest := TrainFrom(loss, n, done + 1, budget - 1);
            var first := StepSaves(loss, done + 1, if n > 0 then n else 0) + [EpochSave(done + 1)];
            var goesOn := EpochAverage(loss, done + 1, n) >= StopThreshold;
            && (x in r.saves <==> x in first || (goesOn && x in rest.saves))
            && r.epochs == (if goesOn then rest.epochs else done + 1)
  {
    var r := TrainFrom(loss, n, done, budget);
    var rest := TrainFrom(loss, n, done + 1, budget - 1);
    var first := StepSaves(loss, done + 1, if n > 0 then n else 0) + [EpochSave(done + 1)];
    if EpochAverage(loss, done + 1, n) >= StopThreshold {
      assert r.saves == first + rest.saves && r.epochs == rest.epochs by {
        TrainFromUnfolds(loss, n, done, budget);
      }
    } else {
      assert r.saves == first && r.epochs == done + 1 by {
        TrainFromUnfolds(loss, n, done, budget);
      }
    }
  }

  /** Epoch `e`'s end-of-epoch checkpoint is written exactly when epoch `e` was entered. */
  lemma {:induction false} EpochSaved(loss: LossOracle, n: int, done: nat, budget: nat, e: nat)
    requires n != 0
    ensures var r := TrainFrom(loss, n, done, budget);
            EpochSave(e) in r.saves <==> done < e <= r.epochs
    decreases budget
  {
    if budget > 0 {
      var k := if n > 0 then n else 0;
      var first := StepSaves(loss, done + 1, k) + [EpochSave(done + 1)];
      assert EpochSave(e) in first <==> e == done + 1 by {
        StepSavedInEpoch(loss, done + 1, k, EpochSave(e));
      }
      SavedBy(loss, n, done, budget, EpochSave(e));
      var r := TrainFrom(loss, n, done, budget);
      if EpochAverage(loss, done + 1, n) >= StopThreshold {
        var rest := TrainFrom(loss, n, done + 1, budget - 1);
        EpochSaved(loss, n, done + 1, budget - 1, e);
        assert EpochSave(e) in r.saves <==> e == done + 1 || EpochSave(e) in rest.saves;
        assert r.epochs == rest.epochs >= done + 1;
      } else {
        assert EpochSave(e) in r.saves <==> e == done + 1;
        assert r.epochs == done + 1;
      }
    }
  }

  /** Every epoch entered, and no other, writes its end-of-epoch checkpoint. */
  lemma {:induction false} EveryEpochSaves(loss: LossOracle, n: int, done: nat, budget: nat)
    requires n != 0
    ensures var r := TrainFrom(loss, n, done, budget);
            forall e: nat :: EpochSave(e) in r.saves <==> done < e <= r.epochs
  {
    forall e: nat
      ensures var r := TrainFrom(loss, n, done, budget); EpochSave(e) in r.saves <==> done < e <= r.epochs
    {
      EpochSaved(loss, n, done, budget, e);
    }
  }

  /** Step `i` of epoch `e` writes a checkpoint exactly when the epoch was entered and the step's loss is low. */
  lemma {:induction false} StepSaved(loss: LossOracle, n: int, done: nat, budget: nat, e: nat, i: nat)
    requires n != 0
    ensures var r := TrainFrom(loss, n, done, budget);
            StepSave(e, i) in r.saves <==> done < e <= r.epochs && i < n && loss(e, i) < StepSaveThreshold
    decreases budget
  {
    if budget > 0 {
      var k := if n > 0 then n else 0;
      var first := StepSaves(loss, done + 1, k) + [EpochSave(done + 1)];
      assert StepSave(e, i) in first <==> e == done + 1 && i < n && loss(e, i) < StepSaveThreshold by {
        StepSavedInEpoch(loss, done + 1, k, StepSave(e, i));
        assert StepSave(e, i) in first <==> StepSave(e, i) in StepSaves(loss, done + 1, k);
      }
      SavedBy(loss, n, done, budget, StepSave(e, i));
      var r := TrainFrom(loss, n, done, budget);
      var low := i < n && loss(e, i) < StepSaveThreshold;
      if EpochAverage(loss, done + 1, n) >= StopThreshold {
        var rest := TrainFrom(loss, n, done + 1, budget - 1);
        StepSaved(loss, n, done + 1, budget - 1, e, i);
        assert StepSave(e, i) in r.saves <==> (e == done + 1 && low) || StepSave(e, i) in rest.saves;
        assert r.epochs == rest.epochs >= done + 1;
        assert StepSave(e, i) in r.saves <==> done < e <= r.epochs && low;
      } else {
        assert StepSave(e, i) in r.saves <==> e == done + 1 && low;
        assert r.epochs == done + 1;
        assert StepSave(e, i) in r.saves <==> done < e <= r.epochs && low;
      }
    } else {
      assert TrainFrom(loss, n, done, budget) == Run([], done, StillTraining);
    }
  }

  /**
    A step writes a checkpoint exactly when its loss is below the step
    threshold, in every epoch entered; the save never ends the pass.
   */
  lemma {:induction false} LowLossStepsSave(loss: LossOracle, n: int, done: nat, budget: nat)
    requires n != 0
    ensures var r := TrainFrom(loss, n, done, budget);
            forall e: nat, i: nat :: StepSave(e, i) in r.saves <==>
              done < e <= r.epochs && i < n && loss(e, i) < StepSaveThreshold
  {
    forall e: nat, i: nat
      ensures var r := TrainFrom(loss, n, done, budget);
              StepSave(e, i) in r.saves <==> done < e <= r.epochs && i < n && loss(e, i) < StepSaveThreshold
    {
      StepSaved(loss, n, done, budget, e, i);
    }
  }

  /**
    A corpus no longer than the window never trains: at `len == block_size`
    the average divides by zero before any save; below it, the zero total
    over a negative count averages to zero, so the first epoch saves and
    stops without a single step.
   */
  lemma {:induction false} DegenerateCorpus(loss: LossOracle, data: seq<int>, b: nat, budget: nat)
    requires budget > 0
    requires |data| <= b
    ensures |data| == b ==> Train(loss, data, b, budget) == Run([], 1, ZeroDivision)
    ensures |data| < b ==> Train(loss, data, b, budget) == Run([EpochSave(1)], 1, Converged)
  {
    if |data| < b {
      assert StepSaves(loss, 1, 0) == [];
    }
  }
}

=== FILE: verification.dfy ===
/**
  The verifier's end-to-end check: reconstruct the corpus from the seed,
  decode it, compare it with the corpus and, on failure, report the first
  divergent position.

  The SHA-256 comparison is modelled as string equality; the model justifies
  "equal strings, equal digests" and takes unequal strings to mean unequal
  digests (no collision).
 */
module Verification {
  import opened Wrappers
  import opened Numeric
  import opened Vocabulary
  import opened Generation

  /** One line of the mismatch report: position, expected and produced character. */
  datatype Divergence = Divergence(position: nat, expected: char, got: char)

  /** How a verification run ends. */
  datatype Verdict =
    | SeedKeyError        // a seed character is missing from the vocabulary
    | IndexKeyError       // a generated index is missing from `itos`
    | HashMatch           // the regenerated text equals the corpus
    | IntegrityFailure(first: Option<Divergence>)

  /**
    The finder loop over `enumerate(zip(expected, got))`: the first position
    within the common length where the two strings differ, if any.
   */
  function FirstDivergence(expected: string, got: string): (r: Option<Divergence>)
    ensures r.None? <==> forall i :: 0 <= i < |expected| && i < |got| ==> expected[i] == got[i]
    ensures r.Some? ==>
              && r.value.position < |expected| && r.value.position < |got|
              && r.value.expected == expected[r.value.position]
              && r.value.got == got[r.value.position]
              && r.value.expected != r.value.got
              && forall i :: 0 <= i < r.value.position ==> expected[i] == got[i]
  {
    if |expected| == 0 || |got| == 0 then None
    else if expected[0] != got[0] then Some(Divergence(0, expected[0], got[0]))
    else match FirstDivergence(expected[1..], got[1..])
      case None => None
      case Some(d) => Some(Divergence(d.position + 1, d.expected, d.got))
  }

  /** Strings of equal length that differ always have a first divergence. */
  lemma {:induction false} DivergenceExists(expected: string, got: string)
    requires |expected| == |got| && expected != got
    ensures FirstDivergence(expected, got).Some?
  {
  }

  /**
    The verifier with the two maps in hand: seed, generate, decode, compare,
    locate.
   */
  function Check(stoi: map<char, int>, itos: map<int, char>, clean: string, predict: Predictor, b: nat): (v: Verdict)
    requires b > 0
    ensures v == SeedKeyError <==> exists k :: 0 <= k < Min(|clean|, b) && clean[k] !in stoi
    ensures v.IntegrityFailure? ==> v.first.Some? && v.first.value.position < |clean|
  {
    match Encode(stoi, clean[..Min(|clean|, b)])
    case None => SeedKeyError
    case Some(seed) =>
      match Decode(itos, Generate(seed, predict, b, StepCount(|clean|, b)))
      case None => IndexKeyError
      case Some(genStr) =>
        if genStr == clean then HashMatch
        else
          DivergenceExists(clean, genStr);
          IntegrityFailure(FirstDivergence(clean, genStr))
  }

  /** What `Check` reports once the seed, the generated indices and the decoded text are known. */
  lemma {:induction false} CheckOutcome(stoi: map<char, int>, itos: map<int, char>, clean: string, predict: Predictor, b: nat,
                     seed: seq<int>, gen: seq<int>, genStr: string)
    requires b > 0
    requires Encode(stoi, clean[..Min(|clean|, b)]) == Some(seed)
    requires Generate(seed, predict, b, StepCount(|clean|, b)) == gen
    requires Decode(itos, gen) == Some(genStr)
    ensures genStr == clean ==> Check(stoi, itos, clean, predict, b) == HashMatch
    ensures genStr != clean ==> Check(stoi, itos, clean, predict, b) == IntegrityFailure(FirstDivergence(clean, genStr))
  {
  }

  /** The whole verifier run: `stoi` is the vocabulary, `itos` its inverse. */
  function Verify(items: Items, clean: string, predict: Predictor, b: nat): (v: Verdict)
    requires b > 0
    ensures v == SeedKeyError <==> exists k :: 0 <= k < Min(|clean|, b) && clean[k] !in Keys(items)
  {
    Check(Stoi(items), Itos(items), clean, predict, b)
  }

  /** The predictor is right on every true window that ends before position `p`. */
  predicate PerfectBefore(predict: Predictor, e: seq<int>, b: nat, p: nat)
    requires p <= |e|
  {
    forall j :: b <= j < p ==> predict(e[j - b..j]) == e[j]
  }

  /**
    The predictor is right on every true window of the encoded corpus `e`:
    from each `b` consecutive true indices it predicts the index that follows.
   */
  predicate PerfectPredictor(predict: Predictor, e: seq<int>, b: nat)
  {
    PerfectBefore(predict, e, b, |e|)
  }

  /** The seed handed to generation is the first `min(len, b)` indices of the corpus's encoding. */
  lemma {:induction false} SeedIsEncodedPrefix(stoi: map<char, int>, clean: string, b: nat)
    requires Encode(stoi, clean).Some?
    ensures Encode(stoi, clean[..Min(|clean|, b)]) == Some(Encode(stoi, clean).value[..Min(|clean|, b)])
  {
    EncodeSlice(stoi, clean, 0, Min(|clean|, b));
    assert clean[0..Min(|clean|, b)] == clean[..Min(|clean|, b)];
  }

  /** A predictor right on the true windows so far regenerates the encoded corpus from its true seed. */
  lemma {:induction false} GenerateFollowsCorpus(e: seq<int>, predict: Predictor, b: nat, n: nat)
    requires b > 0
    requires Min(|e|, b) + n <= |e|
    requires PerfectBefore(predict, e, b, Min(|e|, b) + n)
    ensures Generate(e[..Min(|e|, b)], predict, b, n) == e[..Min(|e|, b) + n]
  {
    if n > 0 {
      assert PerfectBefore(predict, e, b, Min(|e|, b) + n - 1);
      GenerateFollowsCorpus(e, predict, b, n - 1);
      var m := Min(|e|, b) + n - 1;
      assert e[..m + 1] == e[..m] + [e[m]];
      assert Window(e[..m], b) == e[m - b..m];
    }
  }

  /** Running fewer steps yields a prefix of the longer run. */
  lemma {:induction false} GeneratePrefix(seed: seq<int>, predict: Predictor, b: nat, k: nat, n: nat)
    requires b > 0
    requires k <= n
    ensures Generate(seed, predict, b, n)[..|seed| + k] == Generate(seed, predict, b, k)
  {
    var out := Generate(seed, predict, b, n);
    var pre := out[..|seed| + k];
    assert pre[..|seed|] == seed;
    forall j | |seed| <= j < |pre|
      ensures pre[j] == predict(Window(pre[..j], b))
    {
      GenerateChooses(seed, predict, b, n, j);
      assert pre[..j] == out[..j];
    }
    GenerateIsDetermined(seed, predict, b, pre);
  }

  /** If generation from the true seed agrees with `e` up to `p`, the predictor is right on every true window before `p`. */
  lemma {:induction false} AgreementMeansPerfectBefore(e: seq<int>, predict: Predictor, b: nat, n: nat, p: nat)
    requires 0 < b <= p <= b + n
    requires p <= |e|
    requires Generate(e[..b], predict, b, n)[..p] == e[..p]
    ensures PerfectBefore(predict, e, b, p)
  {
    var seed := e[..b];
    var gen := Generate(seed, predict, b, n);
    forall j | b <= j < p
      ensures predict(e[j - b..j]) == e[j]
    {
      GenerateChooses(seed, predict, b, n, j);
      assert gen[..p][j] == e[..p][j];
      assert gen[..j] == e[..j];
      assert Window(e[..j], b) == e[j - b..j];
    }
  }

  /** Conversely, if generation from the true seed reproduces `e`, the predictor is right on every true window. */
  lemma {:induction false} CorpusGeneratedOnlyByPerfect(e: seq<int>, predict: Predictor, b: nat)
    requires b > 0
    requires Generate(e[..Min(|e|, b)], predict, b, StepCount(|e|, b)) == e
    ensures PerfectPredictor(predict, e, b)
  {
    if |e| >= b {
      AgreementMeansPerfectBefore(e, predict, b, StepCount(|e|, b), |e|);
    }
  }

  /**
    The seed is exact: when `itos` inverts `stoi`, the regenerated text
    agrees with the corpus on its first `min(len, b)` characters.
   */
  lemma {:induction false} SeedIsExact(stoi: map<char, int>, itos: map<int, char>, clean: string, predict: Predictor, b: nat)
    requires b > 0
    requires CharsRoundTrip(stoi, itos)
    requires Encode(stoi, clean[..Min(|clean|, b)]).Some?
    requires Decode(itos, Generate(Encode(stoi, clean[..Min(|clean|, b)]).value, predict, b, StepCount(|clean|, b))).Some?
    ensures var seed := Encode(stoi, clean[..Min(|clean|, b)]).value;
            var genStr := Decode(itos, Generate(seed, predict, b, StepCount(|clean|, b))).value;
            genStr[..Min(|clean|, b)] == clean[..Min(|clean|, b)]
  {
    var m := Min(|clean|, b);
    var seed := Encode(stoi, clean[..m]).value;
    var gen := Generate(seed, predict, b, StepCount(|clean|, b));
    var genStr := Decode(itos, gen).value;
    DecodeEncode(stoi, itos, clean[..m]);
    forall k | 0 <= k < m
      ensures genStr[k] == clean[k]
    {
      assert gen[..m][k] == seed[k];
      assert Decode(itos, seed).value[k] == clean[..m][k];
    }
  }

  /** Any reported divergence lies at or after position `min(len, b)`. */
  lemma {:induction false} DivergenceAfterSeed(stoi: map<char, int>, itos: map<int, char>, clean: string, predict: Predictor, b: nat)
    requires b > 0
    requires CharsRoundTrip(stoi, itos)
    requires Check(stoi, itos, clean, predict, b).IntegrityFailure?
    requires Check(stoi, itos, clean, predict, b).first.Some?
    ensures Check(stoi, itos, clean, predict, b).first.value.position >= Min(|clean|, b)
  {
    SeedIsExact(stoi, itos, clean, predict, b);
    var m := Min(|clean|, b);
    var seed := Encode(stoi, clean[..m]).value;
    var genStr := Decode(itos, Generate(seed, predict, b, StepCount(|clean|, b))).value;
    assert forall k :: 0 <= k < m ==> genStr[..m][k] == genStr[k] && clean[..m][k] == clean[k];
  }

  /** If the predictor is right on every true window, the decoded output equals the corpus. */
  lemma {:induction false} PerfectImpliesMatch(stoi: map<char, int>, itos: map<int, char>, clean: string, predict: Predictor, b: nat)
    requires b > 0
    requires CharsRoundTrip(stoi, itos)
    requires Encode(stoi, clean).Some?
    requires PerfectPredictor(predict, Encode(stoi, clean).value, b)
    ensures Check(stoi, itos, clean, predict, b) == HashMatch
  {
    var e := Encode(stoi, clean).value;
    var m := Min(|clean|, b);
    SeedIsEncodedPrefix(stoi, clean, b);
    var n := StepCount(|clean|, b);
    assert m + n == |e|;
    GenerateFollowsCorpus(e, predict, b, n);
    assert e[..m + n] == e;
    DecodeEncode(stoi, itos, clean);
    CheckOutcome(stoi, itos, clean, predict, b, e[..m], e, clean);
  }

  /** A hash match means the predictor was right on every true window. */
  lemma {:induction false} MatchImpliesPerfect(stoi: map<char, int>, itos: map<int, char>, clean: string, predict: Predictor, b: nat)
    requires b > 0
    requires IndicesRoundTrip(stoi, itos)
    requires Encode(stoi, clean).Some?
    requires Check(stoi, itos, clean, predict, b) == HashMatch
    ensures PerfectPredictor(predict, Encode(stoi, clean).value, b)
  {
    var e := Encode(stoi, clean).value;
    SeedIsEncodedPrefix(stoi, clean, b);
    var gen := Generate(e[..Min(|e|, b)], predict, b, StepCount(|e|, b));
    assert Decode(itos, gen) == Some(clean);
    EncodeDecode(stoi, itos, gen);
    CorpusGeneratedOnlyByPerfect(e, predict, b);
  }

  /**
    Perfect-predictor reconstruction, both directions: when `itos` and
    `stoi` invert each other, the verifier reports a hash match exactly when
    the predictor is right on every true window of the corpus.
   */
  lemma {:induction false} MatchIffPerfect(stoi: map<char, int>, itos: map<int, char>, clean: string, predict: Predictor, b: nat)
    requires b > 0
    requires CharsRoundTrip(stoi, itos) && IndicesRoundTrip(stoi, itos)
    ensures Check(stoi, itos, clean, predict, b) == HashMatch <==>
            Encode(stoi, clean).Some? && PerfectPredictor(predict, Encode(stoi, clean).value, b)
  {
    if Encode(stoi, clean).None? {
      var k :| 0 <= k < |clean| && clean[k] !in stoi;
      UnknownNeverMatches(stoi, itos, clean, predict, b, k);
    } else {
      if PerfectPredictor(predict, Encode(stoi, clean).value, b) {
        PerfectImpliesMatch(stoi, itos, clean, predict, b);
      }
      if Check(stoi, itos, clean, predict, b) == HashMatch {
        MatchImpliesPerfect(stoi, itos, clean, predict, b);
      }
    }
  }

  /**
    A corpus with a character outside the vocabulary anywhere never matches:
    past the seed no `KeyError` is raised, but every decoded character is a
    vocabulary character, so the decoded text differs from the corpus there.
   */
  lemma {:induction false} UnknownNeverMatches(stoi: map<char, int>, itos: map<int, char>, clean: string, predict: Predictor, b: nat, k: nat)
    requires b > 0
    requires IndicesRoundTrip(stoi, itos)
    requires k < |clean| && clean[k] !in stoi
    ensures Check(stoi, itos, clean, predict, b) != HashMatch
  {
    match Encode(stoi, clean[..Min(|clean|, b)])
    case None =>
    case Some(seed) =>
      var gen := Generate(seed, predict, b, StepCount(|clean|, b));
      match Decode(itos, gen)
      case None =>
      case Some(genStr) =>
        assert |genStr| == |gen| == |clean|;
        EncodeDecode(stoi, itos, gen);
        assert genStr[k] in stoi;
        assert genStr != clean;
        CheckOutcome(stoi, itos, clean, predict, b, seed, gen, genStr);
  }

  /** The same theorem for the script's own maps, built from a bijective vocabulary. */
  lemma {:induction false} VerifyMatchIffPerfect(items: Items, clean: string, predict: Predictor, b: nat)
    requires b > 0
    requires DistinctKeys(items) && Injective(items)
    ensures Verify(items, clean, predict, b) == HashMatch <==>
            Encode(Stoi(items), clean).Some? && PerfectPredictor(predict, Encode(Stoi(items), clean).value, b)
  {
    ItosInvertsStoi(items);
    MatchIffPerfect(Stoi(items), Itos(items), clean, predict, b);
  }

  /** The theorem at the scripts' own block size of 256 characters. */
  lemma {:induction false} ScriptMatchIffPerfect(items: Items, clean: string, predict: Predictor)
    requires DistinctKeys(items) && Injective(items)
    ensures Verify(items, clean, predict, BlockSize) == HashMatch <==>
            Encode(Stoi(items), clean).Some? && PerfectPredictor(predict, Encode(Stoi(items), clean).value, BlockSize)
  {
    VerifyMatchIffPerfect(items, clean, predict, BlockSize);
  }

  /** Up to the first divergence `p`, the generated indices are the corpus's encoding. */
  lemma {:induction false} AgreesBeforeDivergence(stoi: map<char, int>, itos: map<int, char>, clean: string, predict: Predictor, b: nat)
    requires b > 0
    requires IndicesRoundTrip(stoi, itos)
    requires Encode(stoi, clean).Some?
    requires Check(stoi, itos, clean, predict, b).IntegrityFailure?
    requires Check(stoi, itos, clean, predict, b).first.Some?
    ensures var e := Encode(stoi, clean).value;
            var seed := e[..Min(|clean|, b)];
            var p := Check(stoi, itos, clean, predict, b).first.value.position;
            p < |e| && Generate(seed, predict, b, StepCount(|clean|, b))[..p] == e[..p]
  {
    var e := Encode(stoi, clean).value;
    SeedIsEncodedPrefix(stoi, clean, b);
    var seed := e[..Min(|clean|, b)];
    var gen := Generate(seed, predict, b, StepCount(|clean|, b));
    var genStr := Decode(itos, gen).value;
    var p := FirstDivergence(clean, genStr).value.position;
    forall k | 0 <= k < p
      ensures gen[k] == e[k]
    {
      assert gen[k] in itos && genStr[k] == itos[gen[k]] && genStr[k] == clean[k];
      assert stoi[itos[gen[k]]] == gen[k];
    }
  }

  /**
    A reported divergence blames the predictor: the reported position `p` is
    the first true window on which the predictor is wrong. It is right on
    every true window ending before `p` and wrong on the one ending at `p`.
   */
  lemma {:induction false} DivergenceBlamesPredictor(stoi: map<char, int>, itos: map<int, char>, clean: string, predict: Predictor, b: nat)
    requires b > 0
    requires CharsRoundTrip(stoi, itos) && IndicesRoundTrip(stoi, itos)
    requires Encode(stoi, clean).Some?
    requires Check(stoi, itos, clean, predict, b).IntegrityFailure?
    requires Check(stoi, itos, clean, predict, b).first.Some?
    ensures var e, p := Encode(stoi, clean).value, Check(stoi, itos, clean, predict, b).first.value.position;
            && b <= p < |e|
            && PerfectBefore(predict, e, b, p)
            && predict(e[p - b..p]) != e[p]
  {
    var e := Encode(stoi, clean).value;
    var p := Check(stoi, itos, clean, predict, b).first.value.position;
    var d := Check(stoi, itos, clean, predict, b).first.value;
    DivergenceAfterSeed(stoi, itos, clean, predict, b);
    AgreesBeforeDivergence(stoi, itos, clean, predict, b);
    SeedIsEncodedPrefix(stoi, clean, b);
    var n := StepCount(|clean|, b);
    var gen := Generate(e[..b], predict, b, n);
    var genStr := Decode(itos, gen).value;
    assert d == FirstDivergence(clean, genStr).value;
    AgreementMeansPerfectBefore(e, predict, b, n, p);
    WrongAtDivergence(stoi, itos, clean, e, gen, genStr, p);
    GenerateChooses(e[..b], predict, b, n, p);
    assert Window(gen[..p], b) == e[p - b..p];
  }

  /** At the divergence the generated index differs from the corpus's. */
  lemma {:induction false} WrongAtDivergence(stoi: map<char, int>, itos: map<int, char>, clean: string, e: seq<int>, gen: seq<int>, genStr: string, p: nat)
    requires CharsRoundTrip(stoi, itos)
    requires Encode(stoi, clean) == Some(e)
    requires Decode(itos, gen) == Some(genStr)
    requires p < |clean| && p < |genStr| && genStr[p] != clean[p]
    ensures gen[p] != e[p]
  {
    assert clean[p] in stoi && itos[stoi[clean[p]]] == clean[p];
  }

  /**
    Conversely, if the predictor is first wrong on the true window ending at
    `p`, the verifier reports a divergence at exactly `p`, expecting
    `clean[p]`, unless a generated index is missing from `itos`.
   */
  lemma {:induction false} DivergenceAtFirstWrongPrediction(stoi: map<char, int>, itos: map<int, char>, clean: string, predict: Predictor, b: nat, p: nat)
    requires b > 0
    requires CharsRoundTrip(stoi, itos) && IndicesRoundTrip(stoi, itos)
    requires Encode(stoi, clean).Some?
    requires b <= p < |clean|
    requires PerfectBefore(predict, Encode(stoi, clean).value, b, p)
    requires predict(Encode(stoi, clean).value[p - b..p]) != Encode(stoi, clean).value[p]
    ensures var v := Check(stoi, itos, clean, predict, b);
            || v == IndexKeyError
            || (&& v.IntegrityFailure? && v.first.Some?
                && v.first.value.position == p
                && v.first.value.expected == clean[p]
                && var w := predict(Encode(stoi, clean).value[p - b..p]); w in itos && v.first.value.got == itos[w])
  {
    var e := Encode(stoi, clean).value;
    SeedIsEncodedPrefix(stoi, clean, b);
    var seed := e[..b];
    var n := StepCount(|clean|, b);
    var gen := Generate(seed, predict, b, n);
    assert |e| == |clean| && Min(|e|, b) == b && |seed| == b && p - b <= n;
    GenerateFollowsCorpus(e, predict, b, p - b);
    GeneratePrefix(seed, predict, b, p - b, n);
    assert gen[..p] == Generate(seed, predict, b, p - b) == e[..p];
    GenerateChooses(seed, predict, b, n, p);
    assert Window(gen[..p], b) == e[p - b..p];
    if Decode(itos, gen).Some? {
      var genStr := Decode(itos, gen).value;
      forall k | 0 <= k < p
        ensures genStr[k] == clean[k]
      {
        assert gen[..p][k] == e[k];
        assert clean[k] in stoi && itos[stoi[clean[k]]] == clean[k];
      }
      assert gen[p] in itos && stoi[itos[gen[p]]] == gen[p];
      assert genStr[p] != clean[p];
      var d := FirstDivergence(clean, genStr);
      assert d.Some? && d.value.position == p;
      assert gen[p] == predict(Window(gen[..p], b));
      assert d.value.got == genStr[p] == itos[gen[p]];
    }
  }

  /**
    With dense indices `0 .. |items|-1` and a predictor that, like `argmax`
    over `vocab_size` logits, only returns such indices, decoding never
    raises `KeyError`.
   */
  lemma {:induction false} NoIndexKeyErrorWhenDense(items: Items, clean: string, predict: Predictor, b: nat)
    requires b > 0
    requires Dense(items)
    requires forall w :: 0 <= predict(w) < |items|
    ensures Verify(items, clean, predict, b) != IndexKeyError
  {
    var stoi, itos := Stoi(items), Itos(items);
    var m := Min(|clean|, b);
    var seedOpt := Encode(stoi, clean[..m]);
    if seedOpt.Some? {
      var seed := seedOpt.value;
      var n := StepCount(|clean|, b);
      var gen := Generate(seed, predict, b, n);
      forall k | 0 <= k < |gen|
        ensures gen[k] in itos
      {
        if k < |seed| {
          assert gen[..|seed|][k] == seed[k];
          StoiInValues(items, clean[..m][k]);
        } else {
          GenerateChooses(seed, predict, b, n, k);
        }
      }
      var genStr := Decode(itos, gen).value;
      CheckOutcome(stoi, itos, clean, predict, b, seed, gen, genStr);
    }
  }

  /**
    The script's own predictor, `argmax` over the network's `vocab_size`
    logits, never produces an index `itos` lacks when the indices are dense.
   */
  lemma {:induction false} GreedyNeverIndexKeyError(items: Items, clean: string, network: seq<int> -> seq<real>, b: nat)
    requires b > 0
    requires Dense(items) && |items| > 0
    requires forall w :: |network(w)| == |items|
    ensures Verify(items, clean, GreedyPredictor(network, |items|), b) != IndexKeyError
  {
    NoIndexKeyErrorWhenDense(items, clean, GreedyPredictor(network, |items|), b);
  }
}

=== FILE: vocabulary.dfy ===
/**
  The character vocabulary shared by the trainer and the verifier.

  The pickled vocabulary is a Python dict from characters to indices. It is
  modelled by its `items()` in iteration order, which is what the verifier's
  dict comprehension walks when it builds the inverse map `itos`.
 */
module Vocabulary {
  import opened Wrappers

  /** The dict's `items()`: (character, index) pairs in iteration order. */
  type Items = seq<(char, int)>

  function Keys(items: Items): set<char>
  {
    set k | 0 <= k < |items| :: items[k].0
  }

  function Values(items: Items): set<int>
  {
    set k | 0 <= k < |items| :: items[k].1
  }

  /** A dict never lists a key twice. */
  predicate DistinctKeys(items: Items)
  {
    forall p, q :: 0 <= p < q < |items| ==> items[p].0 != items[q].0
  }

  /** No index is given to two characters (the vocabulary is a bijection). */
  predicate Injective(items: Items)
  {
    forall p, q :: 0 <= p < q < |items| ==> items[p].1 != items[q].1
  }

  /** Indices are dense: exactly `0 .. |items|-1`, the range `argmax` can return. */
  predicate Dense(items: Items)
  {
    && (forall i :: i in Values(items) ==> 0 <= i < |items|)
    && (forall i :: 0 <= i < |items| ==> i in Values(items))
  }

  /** Item `k` is the last item carrying its index. */
  predicate LastWithIndex(items: Items, k: nat)
    requires k < |items|
  {
    forall k' :: k < k' < |items| ==> items[k'].1 != items[k].1
  }

  /** `stoi`: the vocabulary read as a dict. */
  function Stoi(items: Items): (m: map<char, int>)
    ensures m.Keys == Keys(items)
  {
    if |items| == 0 then map[]
    else
      var init := items[..|items| - 1];
      var last := items[|items| - 1];
      assert Keys(items) == Keys(init) + {last.0} by {
        assert forall k :: 0 <= k < |init| ==> init[k] == items[k];
      }
      Stoi(init)[last.0 := last.1]
  }

  /** In a proper dict, each listed character maps to the index listed with it. */
  lemma {:induction false} StoiAt(items: Items, k: nat)
    requires DistinctKeys(items)
    requires k < |items|
    ensures items[k].0 in Stoi(items) && Stoi(items)[items[k].0] == items[k].1
  {
    var init := items[..|items| - 1];
    var last := items[|items| - 1];
    assert Stoi(items) == Stoi(init)[last.0 := last.1];
    if k < |init| {
      assert init[k] == items[k] && items[k].0 != last.0;
      assert DistinctKeys(init);
      StoiAt(init, k);
    }
  }

  /** Every index `stoi` hands out is one listed in the vocabulary. */
  lemma {:induction false} StoiInValues(items: Items, c: char)
    requires c in Stoi(items)
    ensures Stoi(items)[c] in Values(items)
  {
    var init := items[..|items| - 1];
    var last := items[|items| - 1];
    assert Stoi(items) == Stoi(init)[last.0 := last.1];
    assert items[|items| - 1].1 in Values(items);
    if c != last.0 {
      StoiInValues(init, c);
      var k :| 0 <= k < |init| && init[k].1 == Stoi(init)[c];
      assert items[k] == init[k];
    }
  }

  /**
    `itos = {i: ch for ch, i in vocab.items()}`: every index of the
    vocabulary is a key, and it maps to the character of the LAST item that
    carries it, since a later assignment to the same key replaces an earlier one.
   */
  function Itos(items: Items): (m: map<int, char>)
    ensures m.Keys == Values(items)
  {
    if |items| == 0 then map[]
    else
      var init := items[..|items| - 1];
      var last := items[|items| - 1];
      assert Values(items) == Values(init) + {last.1} by {
        assert forall k :: 0 <= k < |init| ==> init[k] == items[k];
      }
      Itos(init)[last.1 := last.0]
  }

  /** The index of an item that no later item repeats maps back to that item's character. */
  lemma {:induction false} ItosAt(items: Items, k: nat)
    requires k < |items| && LastWithIndex(items, k)
    ensures items[k].1 in Itos(items) && Itos(items)[items[k].1] == items[k].0
  {
    var init := items[..|items| - 1];
    var last := items[|items| - 1];
    assert Itos(items) == Itos(init)[last.1 := last.0];
    if k < |init| {
      assert init[k] == items[k] && items[k].1 != last.1;
      assert LastWithIndex(init, k);
      ItosAt(init, k);
    }
  }

  /** `stoi[itos[i]] == i` for every index; this needs only a proper dict. */
  lemma {:induction false} StoiOfItos(items: Items, i: int)
    requires DistinctKeys(items)
    requires i in Itos(items)
    ensures Itos(items)[i] in Stoi(items) && Stoi(items)[Itos(items)[i]] == i
  {
    var k := LastItemWith(items, i);
    ItosAt(items, k);
    StoiAt(items, k);
  }

  /** `itos[stoi[c]] == c` for every character, when the vocabulary is injective. */
  lemma {:induction false} ItosOfStoi(items: Items, c: char)
    requires DistinctKeys(items) && Injective(items)
    requires c in Stoi(items)
    ensures Stoi(items)[c] in Itos(items) && Itos(items)[Stoi(items)[c]] == c
  {
    assert c in Keys(items);
    var k :| 0 <= k < |items| && items[k].0 == c;
    StoiAt(items, k);
    assert LastWithIndex(items, k);
    ItosAt(items, k);
  }

  /** `itos[stoi[c]] == c` for every character of `stoi`. */
  predicate CharsRoundTrip(stoi: map<char, int>, itos: map<int, char>)
  {
    forall c :: c in stoi ==> stoi[c] in itos && itos[stoi[c]] == c
  }

  /** `stoi[itos[i]] == i` for every index of `itos`. */
  predicate IndicesRoundTrip(stoi: map<char, int>, itos: map<int, char>)
  {
    forall i :: i in itos ==> itos[i] in stoi && stoi[itos[i]] == i
  }

  /**
    The two maps invert each other: `stoi[itos[i]] == i` for every index,
    and, when the vocabulary is injective, `itos[stoi[c]] == c` for every
    character.
   */
  lemma {:induction false} ItosInvertsStoi(items: Items)
    requires DistinctKeys(items)
    ensures IndicesRoundTrip(Stoi(items), Itos(items))
    ensures Injective(items) ==> CharsRoundTrip(Stoi(items), Itos(items))
  {
    forall i | i in Itos(items)
      ensures Itos(items)[i] in Stoi(items) && Stoi(items)[Itos(items)[i]] == i
    {
      StoiOfItos(items, i);
    }
    if Injective(items) {
      forall c | c in Stoi(items)
        ensures Stoi(items)[c] in Itos(items) && Itos(items)[Stoi(items)[c]] == c
      {
        ItosOfStoi(items, c);
      }
    }
  }

  /**
    Without injectivity `itos` cannot invert `stoi`: two characters sharing an
    index decode to the same one.
   */
  lemma {:induction false} NonInjectiveLosesCharacter(items: Items)
    requires DistinctKeys(items) && !Injective(items)
    ensures !CharsRoundTrip(Stoi(items), Itos(items))
  {
    var p, q :| 0 <= p < q < |items| && items[p].1 == items[q].1;
    StoiAt(items, p);
    StoiAt(items, q);
    var stoi, itos := Stoi(items), Itos(items);
    assert stoi[items[p].0] == stoi[items[q].0];
    assert items[p].0 != items[q].0 && items[p].1 in Values(items);
  }

  /** The position of the last item carrying index `i`. */
  lemma {:induction false} LastItemWith(items: Items, i: int) returns (k: nat)
    requires i in Values(items)
    ensures k < |items| && items[k].1 == i && LastWithIndex(items, k)
  {
    k := |items| - 1;
    while items[k].1 != i
      invariant k < |items|
      invariant forall k' :: k < k' < |items| ==> items[k'].1 != i
      invariant exists j :: 0 <= j <= k && items[j].1 == i
      decreases k
    {
      k := k - 1;
    }
  }

  /**
    A list comprehension of dict lookups, `[m[x] for x in xs]`: it raises
    `KeyError` at the first element that is not a key, and otherwise yields
    one value per element.
   */
  function LookupAll<K, V>(m: map<K, V>, xs: seq<K>): (r: Option<seq<V>>)
    ensures r.Some? <==> forall k :: 0 <= k < |xs| ==> xs[k] in m
    ensures r.Some? ==> |r.value| == |xs| && forall k :: 0 <= k < |xs| ==> r.value[k] == m[xs[k]]
  {
    if |xs| == 0 then Some([])
    else if xs[0] !in m then None
    else match LookupAll(m, xs[1..])
      case None => assert xs[1..][0] == xs[1]; None
      case Some(rest) => Some([m[xs[0]]] + rest)
  }

  /** `[stoi[c] for c in s]`: the text as indices. */
  function Encode(stoi: map<char, int>, s: string): Option<seq<int>>
  {
    LookupAll(stoi, s)
  }

  /**
    `"".join([itos[i] for i in idx])`: every `itos` value is one character, so
    the joined string has one character per index.
   */
  function Decode(itos: map<int, char>, idx: seq<int>): Option<string>
  {
    LookupAll(itos, idx)
  }

  /** Encoding a slice is slicing the encoding. */
  lemma {:induction false} EncodeSlice(stoi: map<char, int>, s: string, lo: nat, hi: nat)
    requires lo <= hi <= |s|
    requires Encode(stoi, s).Some?
    ensures Encode(stoi, s[lo..hi]) == Some(Encode(stoi, s).value[lo..hi])
  {
    var e := Encode(stoi, s).value;
    assert forall k :: 0 <= k < hi - lo ==> s[lo..hi][k] == s[lo + k];
    var r := Encode(stoi, s[lo..hi]);
    assert r.Some?;
    assert r.value == e[lo..hi];
  }

  /**
    Round trip text -> indices -> text: when `itos` inverts `stoi`, every
    text over the vocabulary's characters decodes back to itself.
   */
  lemma {:induction false} DecodeEncode(stoi: map<char, int>, itos: map<int, char>, s: string)
    requires CharsRoundTrip(stoi, itos)
    requires Encode(stoi, s).Some?
    ensures Decode(itos, Encode(stoi, s).value) == Some(s)
  {
    var e := Encode(stoi, s).value;
    forall k | 0 <= k < |e|
      ensures e[k] in itos && itos[e[k]] == s[k]
    {
      assert e[k] == stoi[s[k]];
    }
    var r := Decode(itos, e);
    assert r.value == s;
  }

  /**
    Round trip indices -> text -> indices: any index list that decodes
    encodes back to itself.
   */
  lemma {:induction false} EncodeDecode(stoi: map<char, int>, itos: map<int, char>, idx: seq<int>)
    requires IndicesRoundTrip(stoi, itos)
    requires Decode(itos, idx).Some?
    ensures Encode(stoi, Decode(itos, idx).value) == Some(idx)
  {
    var s := Decode(itos, idx).value;
    forall k | 0 <= k < |s|
      ensures s[k] in stoi && stoi[s[k]] == idx[k]
    {
      var i := idx[k];
      assert i in itos && s[k] == itos[i];
      assert itos[i] in stoi && stoi[itos[i]] == i;
    }
    var r := Encode(stoi, s);
    assert r.value == idx;
  }
}

=== FILE: wrappers.dfy ===
/** The optional value the model uses for the scripts' `KeyError` paths. */
module Wrappers {

  /** `None` stands for a lookup that raised `KeyError` in the scripts. */
  datatype Option<+T> = None | Some(value: T)
}
